=== FILE: README.md ===
# AjaxModel: a windowed, lazily loaded row cache

This project models the `AjaxModel` of TwoGrids (`slick.TwoGrids.js`, lines
33-223) in Dafny and proves properties of the model. `AjaxModel` is the data
source behind a SlickGrid table. The grid reports the rows it is about to
show. The model keeps a sparse cache of rows keyed by index, fetches only the
rows it lacks, and merges each server response back into the cache. It
throws the cache away when the sort order or the search text changes.

The closure's mutable variables become one immutable `AjaxModel.State`:

- the store `data` is a `map<int, RowState>`. A missing key is an absent row. `Pending` is the JavaScript `null` marker ("requested"). `Resolved(row)` is a loaded row;
- `data.length` is the believed total, and `opts.optimal` is the batch-size hint;
- the column state is the `loadColumns` flag, the last `columns` received, and whether columns are enabled at all;
- the query is made of `search`, `sortColumn`, `sortAsc` and `params`;
- `scheduled: Option<Window>` stands for the single timer handle `req`.

Every operation is a pure function from state to state:

- `EnsureData` computes the window (module `Window`) and arms the timer;
- `Fire` is the timer body: `Launch` marks the window Pending and spends the timer, then `Fire` builds the POST request;
- `Respond` and `Fail` are the two `$.post` callbacks;
- the remaining public functions are `Clear`, `IsDataLoaded`, `ReloadData`, `ReloadColumns`, `SetSort`, `SetSearch`, `SetParam` and `RemoveParam`.

Module `Session` puts the model in its environment: a `World` is the model
together with the requests posted and not yet answered. The server may answer
or reject posted requests in any order, and more than one may be in flight.

Points of the code that the model keeps as written:

- **Pending counts as present.** Trimming, sliding and the early return test `!== undefined` (slick.TwoGrids.js:72-78, 97-114). After a request fails, its rows stay Pending. An `ensureData` call whose range lies inside that window therefore schedules nothing (`FailedWindowIsNotRefetched`). Those rows are posted again only when some later window covers them, or after `clear`, `setSort`, `setSearch`, `reloadData` or a new total makes them absent.
- **The early return happens before the timer is cleared.** A call that needs nothing keeps an earlier schedule.
- **`size` is stale.** It is measured before widening (slick.TwoGrids.js:82), and the response handler compares the received count with it using `!=` (slick.TwoGrids.js:152). Suppose a widened window is answered with exactly `size` rows. Then the rest of the window stays Pending, and an `ensureData` call whose range lies inside that tail schedules nothing (`StaleSizeLeavesTailPending`). A full answer usually differs from `size`, and the optimal size becomes the number of rows received. It is kept when the final trim (slick.TwoGrids.js:113-114) narrowed the window back to `size` rows.
- **The tail deletion starts at `from + count - 1`** (slick.TwoGrids.js:154). When at least one row arrives, that index then receives the last received row (slick.TwoGrids.js:158-160). With zero rows the deletion removes the row just below the window, and the optimal size becomes 0 (`EmptyResponseDropsRowBelowWindow`).
- **The response reads the live `loadColumns` flag.** It does not use the flag the request was posted with.
- **`params` can override built-in fields.** They are merged over the built-in POST fields by `$.extend`, so an extra parameter named `from` or `sort` replaces the built-in one.
- **Widening can reach index 0.** `ensureData(40, 42)` with an optimal size of 100 on an empty cache schedules `[0, 100]`, both for the bare window computation and for a model created with the default options (`WidenedFromStart`).
- **Responses are never cancelled.** A request posted before `setSearch` or `setSort` still writes its rows into the cleared store when it is answered (`Session.StaleResponseRepopulates`).

## Model

| member | source | states |
|---|---|---|
| Rows.AllLoaded | slick.TwoGrids.js:184-191 | true exactly when every index of the inclusive range holds a loaded row; absent or pending gives false, an empty range gives true |
| Rows.MarkPending | slick.TwoGrids.js:124-128 | every index of the window is present afterwards; loaded rows keep their value, all other window indices become Pending; indices outside the window are untouched |
| Rows.StoreRows | slick.TwoGrids.js:158-161 | row k is stored at `from + k` as a loaded row whose `index` field is `from + k`; every key outside the received span keeps its presence and value |
| Rows.DeleteRange | slick.TwoGrids.js:154-155 | exactly the keys of the inclusive range are removed; every other key keeps its value |
| Rows.Stamp | slick.TwoGrids.js:160 | the row gains (or overwrites) an `index` field equal to its position and keeps every other field |
| Window.Clamp | slick.TwoGrids.js:71 | the start is never below 0 and a non-negative start is kept |
| Window.TrimFront | slick.TwoGrids.js:72 | the start moves to the first absent index before `to`, or to `to` if there is none; it stays where it is when `to <= from`; every index skipped is present (pending or loaded) |
| Window.TrimBack | slick.TwoGrids.js:73 | the end moves down to the last absent index after `from`, or to `from` if there is none; it stays where it is when `to <= from`; every index skipped is present |
| Window.HalfRounded | slick.TwoGrids.js:85 | `Math.round(d / 2)`: the integer nearest `d / 2`, halves rounded up |
| Window.Widen | slick.TwoGrids.js:82-94 | a window narrower than `optimal` becomes `optimal` or `optimal + 1` wide, contains the old window, starts at 0 or above, and grows by the same amount at both ends unless the start was clamped to 0 |
| Window.SlideUp | slick.TwoGrids.js:97-101 | the width is kept; the new start is absent and every index passed over is present |
| Window.SlideDown | slick.TwoGrids.js:103-108 | the width is kept; the start stays at 0 or above; it stops only at an absent end or a start of 0; every end passed over is present |
| Window.Slide | slick.TwoGrids.js:96-108 | the width is kept, the start stays at 0 or above, and no absent index of the widened window is slid out of it |
| Window.ComputeWindow | slick.TwoGrids.js:68-114 | a scheduled window never starts below 0 |
| Window.EarlyReturnIffPresent | slick.TwoGrids.js:72-78 | the early return happens exactly when every index from the clamped start to `to` (at least the start) is present |
| Window.WindowCoversMissing | slick.TwoGrids.js:68-114 | every absent index of the clamped request lies inside the computed window |
| AjaxModel.Create | slick.TwoGrids.js:33-50 | a new model holds no rows, believes length 0, has nothing scheduled and asks for columns exactly when they are enabled |
| AjaxModel.Clear | slick.TwoGrids.js:55-60 | every index is absent and the length is 0; the query, the column state and the schedule are unchanged |
| AjaxModel.EnsureData | slick.TwoGrids.js:68-122 | never changes the store; when the request is already present nothing changes, so an earlier schedule survives; otherwise the new window replaces the scheduled one |
| AjaxModel.SortValue | slick.TwoGrids.js:136 | the posted sort field is the column name, or `null` when no sort column is set |
| AjaxModel.RequestBody | slick.TwoGrids.js:132-144 | the POST body holds the window, search, sort and direction, `loadColumns: true` exactly when columns are wanted, and every extra parameter, which wins over a built-in field of the same name |
| AjaxModel.Launch | slick.TwoGrids.js:122-128 | with a window armed, every non-loaded index in it becomes Pending, loaded rows and indices outside it are unchanged, and nothing stays scheduled; with none armed the state is unchanged |
| AjaxModel.Fire | slick.TwoGrids.js:122-144 | the state becomes the one `Launch` describes; with a window armed, `onDataLoading` is notified with it and one request carrying the window, its stale size and the POST body is posted; with none armed nothing is posted |
| AjaxModel.ReconcileStore | slick.TwoGrids.js:145-161 | a new total leaves only the received rows; received rows are loaded and stamped; a count different from the stale size leaves `from + count .. to` absent, and `from - 1` too when the count is 0; untouched keys are kept |
| AjaxModel.Respond | slick.TwoGrids.js:144-169 | the total is believed; a count different from the stale size becomes the optimal size; columns are taken and the flag cleared when the live flag was set; `DataLoaded` is notified with the request's bounds |
| AjaxModel.Fail | slick.TwoGrids.js:170-172 | the store is left as it is (Pending stays Pending) and the failed window is reported |
| AjaxModel.IsDataLoaded | slick.TwoGrids.js:184-191 | true exactly when every index of the inclusive range holds a loaded row |
| AjaxModel.ReloadData | slick.TwoGrids.js:192-197 | every index of the range is absent afterwards, indices outside it are unchanged, and only the schedule may change otherwise |
| AjaxModel.ReloadColumns | slick.TwoGrids.js:198-202 | the flag is set exactly when it was set already or columns are enabled; nothing else changes |
| AjaxModel.RemoveParam | slick.TwoGrids.js:203-205 | the parameter is gone, the others are kept, nothing else changes |
| AjaxModel.SetParam | slick.TwoGrids.js:206-208 | the parameter maps to the value, the others are kept, nothing else changes |
| AjaxModel.SetSort | slick.TwoGrids.js:209-213 | the new sort order is set and every index is absent with length 0 |
| AjaxModel.SetSearch | slick.TwoGrids.js:214-217 | the new search text is set and every index is absent with length 0 |
| AjaxModelProperties.EnsureThenFireCoversRequest | slick.TwoGrids.js:68-128 | after `ensureData` and the timer, every index of the clamped request is present |
| AjaxModelProperties.LaterWindowSupersedes | slick.TwoGrids.js:116-122 | a second window armed before the timer fires replaces the first: the posted request is the second call's alone |
| AjaxModelProperties.PresentRangeIsNotFetched | slick.TwoGrids.js:72-78 | a range that is entirely pending or loaded changes nothing and posts nothing |
| AjaxModelProperties.RespondLoadsReturnedRows | slick.TwoGrids.js:158-161 | after a response, `isDataLoaded` holds for the span of returned rows |
| AjaxModelProperties.NewTotalDropsOtherRows | slick.TwoGrids.js:147-150 | a changed total drops every row outside the received batch |
| AjaxModelProperties.EmptyResponseDropsRowBelowWindow | slick.TwoGrids.js:152-156 | a zero-row answer deletes the loaded row at `from - 1` and sets the optimal size to 0 |
| AjaxModelProperties.StaleSizeLeavesTailPending | slick.TwoGrids.js:82-156 | an answer with exactly the stale size leaves the rest of the window Pending, and `ensureData` on such a row changes nothing |
| AjaxModelProperties.FailedWindowIsNotRefetched | slick.TwoGrids.js:124-128 | after a failed request, `ensureData` anywhere inside its window changes nothing |
| AjaxModelProperties.ReloadDataSchedulesRange | slick.TwoGrids.js:192-197 | `reloadData` always schedules a window covering the whole clamped range |
| AjaxModelProperties.InvalidationUnloadsEverything | slick.TwoGrids.js:209-217 | after `clear`, `setSort` or `setSearch` no non-empty range is loaded |
| AjaxModelProperties.SetParamReachesRequest | slick.TwoGrids.js:206-208 | a parameter set before the timer fires is in the posted body with its value |
| AjaxModelProperties.RemoveParamUndoesSetParam | slick.TwoGrids.js:203-208 | removing a freshly added parameter restores the state |
| AjaxModelProperties.ColumnsRequestedOnce | slick.TwoGrids.js:139-141 | after `reloadColumns` the next request asks for columns; after its response the columns are stored and the next body no longer asks |
| AjaxModelProperties.WidenedFromStart | slick.TwoGrids.js:34-94 | `ensureData(40, 42)` on a model created with the default options (optimal 100, empty store) schedules `[0, 100]` with stale size 3 |
| AjaxModelProperties.ShortReadShrinksOptimal | slick.TwoGrids.js:145-161 | whatever total was believed before, a 100-row request answered with 60 rows and total 60 leaves rows 60-99 absent, rows 0-59 loaded, and length and optimal size 60 |
| Session.Step | slick.TwoGrids.js:122-172 | every event keeps the store's indices non-negative and every scheduled or posted window starting at 0 or above, and posts at most one request |
| Session.RunPreservesValid | slick.TwoGrids.js:33-223 | along any sequence of calls, timer runs and answers in any order, the store holds only non-negative indices |
| Session.StaleResponseRepopulates | slick.TwoGrids.js:144-161 | a request posted before `setSearch` or `setSort` is still answered into the cleared store: its rows become loaded, and the believed length becomes the stale total |
| Session.TwoRequestsInFlight | slick.TwoGrids.js:116-144 | a second window can be armed and posted while the first request is still unanswered, so two requests are in flight at once |

## Left out

- Timing: `setTimeout`, `clearTimeout` and the 100 ms delay are not modelled. Only the replaceable `scheduled` slot and an explicit `Fire` step remain.
- Transport: `$.post`, JSON parsing and `parseInt` are left out. The total and the rows arrive already parsed as integers and records. A total that parses to `NaN` is not modelled.
- Value types: row, column and parameter values are JSON scalars (`Value`), with numbers as exact `real`s. Nested values, the rounding of JavaScript doubles, `undefined` parameter values and `null` rows in a response (which make the source throw) are not modelled.
- Events: `Slick.Event` subscription is not modelled. The notifications are returned as `Notice` values, and `onError`'s `alert` is the `LoadFailed` notice.
- The `opts.columns` option: it is reduced to one flag, `columnsEnabled`, that stands for `opts.columns != false`. The response field the columns are read from is not modelled, and neither is JavaScript's loose comparison with `false`.
- Number precision: indices and sizes are unbounded integers. JavaScript doubles lose precision above 2^53, and nothing in the grid comes near that.
- The exported `columns` property is left out. It is a snapshot taken at construction and never updated.
- The rest of the file is left out: RowSelectionModel, SingleGrid and TwoGrid (lines 225-502) are DOM and widget glue with no cache logic.
- Window.ComputeWindow: its own contract only bounds the start. The early return and the coverage of the request are stated by `Window.EarlyReturnIffPresent` and `Window.WindowCoversMissing`.

=== FILE: ajax_model.dfy ===
/**
 The AjaxModel of slick.TwoGrids.js:33-223: a lazily loaded, sparse row cache
 that fetches windows of rows from a server.

 The closure's mutable variables become one immutable `State`; every public
 function of the model, the timer body and the two `$.post` callbacks become
 pure transitions. The single timer handle `req` is the `scheduled` slot:
 arming a timer replaces it, and `Fire` is the timer running.
 */
module AjaxModel {
  import opened Wrappers
  import opened Rows
  import opened Window

  type Columns = seq<Record>

  /** The options the model is created with, after `$.extend` with its defaults. */
  datatype Options = Options(
    optimal: int,
    search: string,
    sortColumn: Option<string>,
    sortAsc: bool,
    columnsEnabled: bool,  // `opts.columns != false`
    params: Record)

  /** The defaults of slick.TwoGrids.js:34-46. */
  const DefaultOptions := Options(100, "", None, true, true, map[])

  datatype State = State(
    store: Store,               // `data` without its `length` key
    length: int,                // `data.length`, the believed total
    optimal: int,               // `opts.optimal`, the batch-size hint
    columnsEnabled: bool,       // `opts.columns != false`
    loadColumns: bool,          // the next request asks for columns
    columns: Option<Columns>,   // the last columns received
    search: string,
    sortColumn: Option<string>,
    sortAsc: bool,
    params: Record,             // `opts.params`, extra POST fields
    scheduled: Option<Window>)  // the window of the armed timer `req`

  /** One fetch as it is posted: the window's bounds and stale size, and the POST body. */
  datatype Request = Request(from: int, to: int, size: int, body: Record)

  /** The notifications of the three `Slick.Event`s and of `opts.onError`. */
  datatype Notice =
    | DataLoading(from: int, to: int)
    | DataLoaded(from: int, to: int)
    | ColumnsLoaded(columns: Option<Columns>)
    | LoadFailed(from: int, to: int)

  datatype Fired = Fired(state: State, request: Option<Request>, notices: seq<Notice>)

  datatype Reply = Reply(state: State, notices: seq<Notice>)

  /** The store only holds row indices and a scheduled window never starts below 0. */
  ghost predicate Valid(st: State) {
    && IndicesNonNegative(st.store)
    && (st.scheduled.Some? ==> 0 <= st.scheduled.value.from)
  }

  /** Everything but the store, its believed length and the schedule is as before. */
  ghost predicate SameSettings(st: State, st': State) {
    && st'.optimal == st.optimal
    && st'.columnsEnabled == st.columnsEnabled
    && st'.loadColumns == st.loadColumns
    && st'.columns == st.columns
    && st'.search == st.search
    && st'.sortColumn == st.sortColumn
    && st'.sortAsc == st.sortAsc
    && st'.params == st.params
  }

  /** The state right after `AjaxModel(options)` (slick.TwoGrids.js:33-50). */
  function Create(opts: Options): (st: State)
    ensures Valid(st)
    ensures forall i :: !Present(st.store, i)
    ensures st.length == 0 && st.scheduled.None? && st.columns.None?
    ensures st.loadColumns == opts.columnsEnabled && st.columnsEnabled == opts.columnsEnabled
    ensures st.optimal == opts.optimal && st.params == opts.params
    ensures st.search == opts.search && st.sortColumn == opts.sortColumn && st.sortAsc == opts.sortAsc
  {
    State(map[], 0, opts.optimal, opts.columnsEnabled, opts.columnsEnabled, None,
          opts.search, opts.sortColumn, opts.sortAsc, opts.params, None)
  }

  /** `clear`: every index becomes absent and the believed length 0; nothing else changes. */
  function Clear(st: State): (r: State)
    ensures forall i :: !Present(r.store, i)
    ensures r.length == 0
    ensures SameSettings(st, r) && r.scheduled == st.scheduled
    ensures Valid(st) ==> Valid(r)
  {
    st.(store := map[], length := 0)
  }

  /**
   `ensureData(from, to)`. It never touches the store. If every index from
   the clamped start up to `to` is present (pending or loaded) it returns
   before clearing the timer, so an earlier schedule survives; otherwise
   the newly computed window replaces whatever was scheduled.
   */
  function EnsureData(st: State, from: int, to: int): (r: State)
    ensures r.store == st.store && r.length == st.length && SameSettings(st, r)
    ensures (forall i :: Clamp(from) <= i <= to || i == Clamp(from) ==> Present(st.store, i)) ==> r == st
    ensures (exists i :: (Clamp(from) <= i <= to || i == Clamp(from)) && !Present(st.store, i))
            ==> r.scheduled.Some? && r.scheduled == ComputeWindow(st.store, st.optimal, from, to)
    ensures Valid(st) ==> Valid(r)
  {
    EarlyReturnIffPresent(st.store, st.optimal, from, to);
    match ComputeWindow(st.store, st.optimal, from, to)
    case None => st
    case Some(w) => st.(scheduled := Some(w))
  }

  /** `opts.sortColumn` as posted: a column name or `null`. */
  function SortValue(column: Option<string>): (v: Value)
    ensures column.None? <==> v == Null
    ensures column.Some? ==> v == Text(column.value)
  {
    match column
    case None => Null
    case Some(c) => Text(c)
  }

  /**
   The POST body of slick.TwoGrids.js:132-144: the window and the query,
   `loadColumns: true` when columns are wanted, then `opts.params` merged
   over them by `$.extend`, so an extra parameter wins over a field of the
   same name.
   */
  function RequestBody(st: State, w: Window): (body: Record)
    ensures forall k :: k in st.params ==> k in body && body[k] == st.params[k]
    ensures "from" !in st.params ==> "from" in body && body["from"] == Num(w.from as real)
    ensures "to" !in st.params ==> "to" in body && body["to"] == Num(w.to as real)
    ensures "search" !in st.params ==> "search" in body && body["search"] == Text(st.search)
    ensures "sort" !in st.params ==> "sort" in body && body["sort"] == SortValue(st.sortColumn)
    ensures "asc" !in st.params ==> "asc" in body && body["asc"] == Flag(st.sortAsc)
    ensures "loadColumns" !in st.params ==>
              ("loadColumns" in body <==> st.loadColumns) &&
              (st.loadColumns ==> body["loadColumns"] == Flag(true))
    ensures body.Keys == {"from", "to", "search", "sort", "asc"} + st.params.Keys
                         + (if st.loadColumns then {"loadColumns"} else {})
  {
    var base := map["from" := Num(w.from as real), "to" := Num(w.to as real), "search" := Text(st.search),
                    "sort" := SortValue(st.sortColumn), "asc" := Flag(st.sortAsc)];
    var flagged := if st.loadColumns then base["loadColumns" := Flag(true)] else base;
    flagged + st.params
  }

  /**
   The state the timer body leaves behind (slick.TwoGrids.js:122-128): every
   index of the scheduled window that is not loaded becomes Pending, loaded
   rows and every index outside the window are left alone, and the timer is
   spent. With no armed timer nothing changes.
   */
  function Launch(st: State): (r: State)
    ensures r.scheduled.None?
    ensures r.length == st.length && SameSettings(st, r)
    ensures st.scheduled.None? ==> r.store == st.store
    ensures st.scheduled.Some? ==>
              var w := st.scheduled.value;
              && (forall i :: w.from <= i <= w.to ==> Present(r.store, i))
              && (forall i :: w.from <= i <= w.to && !Loaded(st.store, i) ==> Present(r.store, i) && r.store[i] == Pending)
              && (forall i :: (i < w.from || w.to < i) ==> (Present(r.store, i) <==> Present(st.store, i)))
              && (forall i :: (i < w.from || w.to < i) && Present(st.store, i) ==> r.store[i] == st.store[i])
    ensures forall i :: Loaded(st.store, i) ==> Present(r.store, i) && r.store[i] == st.store[i]
    ensures forall i :: Present(st.store, i) ==> Present(r.store, i)
    ensures Valid(st) ==> Valid(r)
  {
    match st.scheduled
    case None => st
    case Some(w) => st.(store := MarkPending(st.store, w.from, w.to), scheduled := None)
  }

  /**
   The timer body (slick.TwoGrids.js:122-144): the store is claimed as
   `Launch` describes, `onDataLoading` is notified with the window, and the
   request for the window, its stale size and the POST body is posted.
   With no armed timer nothing is posted.
   */
  function Fire(st: State): (r: Fired)
    ensures r.state == Launch(st)
    ensures st.scheduled.None? ==> r.state == st && r.request.None? && r.notices == []
    ensures st.scheduled.Some? ==>
              var w := st.scheduled.value;
              && r.request == Some(Request(w.from, w.to, w.size, RequestBody(st, w)))
              && r.notices == [DataLoading(w.from, w.to)]
    ensures Valid(st) ==> r.request.Some? ==> 0 <= r.request.value.from
  {
    match st.scheduled
    case None => Fired(st, None, [])
    case Some(w) =>
      Fired(Launch(st), Some(Request(w.from, w.to, w.size, RequestBody(st, w))), [DataLoading(w.from, w.to)])
  }

  /**
   The keys the success callback may write or delete: the received rows'
   positions and, on a count that differs from the stale size, the tail
   deletion range, which starts one index early.
   */
  predicate Touched(req: Request, received: nat, i: int) {
    || req.from <= i < req.from + received
    || (received != req.size && req.from + received - 1 <= i <= req.to)
  }

  /**
   The store half of the success callback (slick.TwoGrids.js:145-161). A new
   total (`lengthChanged`) empties the store first. A count different from
   the request's stale `size` deletes `from + count - 1 .. to`, and then the
   rows are stored, each stamped with its index.
   */
  function ReconcileStore(s: Store, lengthChanged: bool, req: Request, rows: seq<Record>): (r: Store)
    ensures lengthChanged ==> forall i :: Present(r, i) <==> req.from <= i < req.from + |rows|
    ensures forall i :: req.from <= i < req.from + |rows| ==>
              Present(r, i) && r[i] == Resolved(Stamp(rows[i - req.from], i))
    ensures |rows| != req.size ==> forall i :: req.from + |rows| <= i <= req.to ==> !Present(r, i)
    ensures |rows| == 0 && req.size != 0 && req.from <= req.to + 1 ==> !Present(r, req.from - 1)
    ensures !lengthChanged ==> forall i :: !Touched(req, |rows|, i) ==> (Present(r, i) <==> Present(s, i))
    ensures !lengthChanged ==> forall i :: !Touched(req, |rows|, i) && Present(s, i) ==>
              Present(r, i) && r[i] == s[i]
    ensures IndicesNonNegative(s) && 0 <= req.from ==> IndicesNonNegative(r)
  {
    var kept := if lengthChanged then map[] else s;
    var trimmed := if |rows| != req.size then DeleteRange(kept, req.from + |rows| - 1, req.to) else kept;
    StoreRows(trimmed, req.from, rows)
  }

  /**
   The success callback of `$.post` (slick.TwoGrids.js:144-169) for a parsed
   response with `total` rows in all and `rows` in this batch: the store is
   reconciled, the total is believed, a count different from the stale
   `size` becomes the optimal batch size, and columns are taken when the
   live `loadColumns` flag is set at the time the response arrives.
   */
  function Respond(st: State, req: Request, total: int, rows: seq<Record>, columns: Option<Columns>): (r: Reply)
    ensures r.state.store == ReconcileStore(st.store, st.length != total, req, rows)
    ensures r.state.length == total
    ensures |rows| != req.size ==> r.state.optimal == |rows|
    ensures |rows| == req.size ==> r.state.optimal == st.optimal
    ensures st.loadColumns ==> !r.state.loadColumns && r.state.columns == columns
    ensures !st.loadColumns ==> !r.state.loadColumns && r.state.columns == st.columns
    ensures r.notices == (if st.loadColumns then [ColumnsLoaded(columns)] else []) + [DataLoaded(req.from, req.to)]
    ensures r.state.scheduled == st.scheduled && r.state.columnsEnabled == st.columnsEnabled
    ensures r.state.search == st.search && r.state.sortColumn == st.sortColumn
    ensures r.state.sortAsc == st.sortAsc && r.state.params == st.params
    ensures Valid(st) && 0 <= req.from ==> Valid(r.state)
  {
    var store := ReconcileStore(st.store, st.length != total, req, rows);
    var optimal := if |rows| != req.size then |rows| else st.optimal;
    var notices := (if st.loadColumns then [ColumnsLoaded(columns)] else []) + [DataLoaded(req.from, req.to)];
    // The flag is read when the response arrives, not when the request was posted.
    var st' := st.(store := store, length := total, optimal := optimal,
                   columns := if st.loadColumns then columns else st.columns,
                   loadColumns := false);
    Reply(st', notices)
  }

  /** The error callback (slick.TwoGrids.js:170-172): `onError(from, to)`; the store keeps its Pending entries. */
  function Fail(st: State, req: Request): (r: Reply)
    ensures r.state == st
    ensures r.notices == [LoadFailed(req.from, req.to)]
  {
    Reply(st, [LoadFailed(req.from, req.to)])
  }

  /** `isDataLoaded(from, to)`: every index of the inclusive range holds a loaded row. */
  function IsDataLoaded(st: State, from: int, to: int): (b: bool)
    ensures b <==> forall i :: from <= i <= to ==> Loaded(st.store, i)
  {
    AllLoaded(st.store, from, to)
  }

  /**
   `reloadData(from, to)`: every index of `[from, to]` becomes absent,
   then `ensureData(from, to)` runs on the result.
   */
  function ReloadData(st: State, from: int, to: int): (r: State)
    ensures forall i :: from <= i <= to ==> !Present(r.store, i)
    ensures forall i :: (i < from || to < i) ==> (Present(r.store, i) <==> Present(st.store, i))
    ensures forall i :: (i < from || to < i) && Present(st.store, i) ==> Present(r.store, i) && r.store[i] == st.store[i]
    ensures r.length == st.length && SameSettings(st, r)
    ensures Valid(st) ==> Valid(r)
  {
    EnsureData(st.(store := DeleteRange(st.store, from, to)), from, to)
  }

  /** `reloadColumns`: columns are asked for again, unless columns are switched off. */
  function ReloadColumns(st: State): (r: State)
    ensures r.loadColumns <==> st.loadColumns || st.columnsEnabled
    ensures r == st.(loadColumns := r.loadColumns)
  {
    if st.columnsEnabled then st.(loadColumns := true) else st
  }

  /** `removeParam(param)`: only `params` changes, losing the key. */
  function RemoveParam(st: State, param: string): (r: State)
    ensures param !in r.params
    ensures forall k :: k in st.params && k != param ==> k in r.params && r.params[k] == st.params[k]
    ensures r.params.Keys <= st.params.Keys
    ensures r == st.(params := r.params)
  {
    st.(params := st.params - {param})
  }

  /** `setParam(param, value)`: only `params` changes, mapping the key to the value. */
  function SetParam(st: State, param: string, value: Value): (r: State)
    ensures param in r.params && r.params[param] == value
    ensures forall k :: k in st.params && k != param ==> k in r.params && r.params[k] == st.params[k]
    ensures r.params.Keys == st.params.Keys + {param}
    ensures r == st.(params := r.params)
  {
    st.(params := st.params[param := value])
  }

  /** `setSort(column, asc)`: the new sort order, then `clear`. */
  function SetSort(st: State, column: Option<string>, asc: bool): (r: State)
    ensures r.sortColumn == column && r.sortAsc == asc
    ensures forall i :: !Present(r.store, i)
    ensures r.length == 0 && r.scheduled == st.scheduled
    ensures r.search == st.search && r.params == st.params && r.optimal == st.optimal
    ensures r.loadColumns == st.loadColumns && r.columns == st.columns && r.columnsEnabled == st.columnsEnabled
    ensures Valid(st) ==> Valid(r)
  {
    Clear(st.(sortColumn := column, sortAsc := asc))
  }

  /** `setSearch(str)`: the new search text, then `clear`. */
  function SetSearch(st: State, text: string): (r: State)
    ensures r.search == text
    ensures forall i :: !Present(r.store, i)
    ensures r.length == 0 && r.scheduled == st.scheduled
    ensures r.sortColumn == st.sortColumn && r.sortAsc == st.sortAsc && r.params == st.params
    ensures r.optimal == st.optimal
    ensures r.loadColumns == st.loadColumns && r.columns == st.columns && r.columnsEnabled == st.columnsEnabled
    ensures Valid(st) ==> Valid(r)
  {
    Clear(st.(search := text))
  }
}

=== FILE: properties.dfy ===
/**
 Properties that relate several AjaxModel operations: a request is covered
 once its timer fires, a newer window supersedes an older one, responses
 make their rows loaded, and invalidation unloads everything. Because the
 pending marker counts as present, an `ensureData` call whose range lies
 inside a failed window, or inside the tail that an answer with exactly
 the stale size leaves Pending, schedules nothing.
 */
module AjaxModelProperties {
  import opened Wrappers
  import opened Rows
  import opened Window
  import opened AjaxModel

  /**
   After `ensureData(from, to)` and the timer (whichever window it was
   armed with), every index of the clamped request is present: it was
   present already, or the new window covers it and it is now Pending.
   */
  lemma EnsureThenFireCoversRequest(st: State, from: int, to: int)
    ensures forall i :: Clamp(from) <= i <= to ==> Present(Fire(EnsureData(st, from, to)).state.store, i)
  {
  }

  /**
   A window armed while another is still scheduled replaces it: the timer
   posts exactly the request the second call would have posted alone.
   */
  lemma LaterWindowSupersedes(st: State, a: int, b: int, c: int, d: int)
    requires !Present(st.store, Clamp(c))
    ensures Fire(EnsureData(EnsureData(st, a, b), c, d)) == Fire(EnsureData(st, c, d))
    ensures Fire(EnsureData(st, c, d)).request.Some?
  {
  }

  /** A fully requested range (pending or loaded) posts nothing and changes nothing. */
  lemma PresentRangeIsNotFetched(st: State, from: int, to: int)
    requires 0 <= from <= to
    requires forall i :: from <= i <= to ==> Present(st.store, i)
    ensures EnsureData(st, from, to) == st
  {
  }

  /** After a response every returned row is loaded, whatever happened to the rest of the store. */
  lemma RespondLoadsReturnedRows(st: State, req: Request, total: int, rows: seq<Record>, columns: Option<Columns>)
    ensures IsDataLoaded(Respond(st, req, total, rows, columns).state, req.from, req.from + |rows| - 1)
  {
  }

  /**
   A response whose total differs from the believed length drops every row
   outside the batch, even rows loaded long before.
   */
  lemma NewTotalDropsOtherRows(st: State, req: Request, total: int, rows: seq<Record>, columns: Option<Columns>, i: int)
    requires st.length != total
    requires i < req.from || req.from + |rows| <= i
    ensures !Present(Respond(st, req, total, rows, columns).state.store, i)
  {
  }

  /**
   With zero rows received for a non-empty request, the tail deletion starts
   at `from - 1`: the row just below the window is dropped although it was
   never requested, and the optimal size becomes 0.
   */
  lemma EmptyResponseDropsRowBelowWindow(st: State, req: Request, total: int, columns: Option<Columns>)
    requires total == st.length && req.size != 0 && req.from <= req.to
    requires Loaded(st.store, req.from - 1)
    ensures var r := Respond(st, req, total, [], columns).state;
            !Present(r.store, req.from - 1) && r.optimal == 0
  {
  }

  /**
   The size compared with the received count is measured before widening.
   When the server returns exactly that many rows for a widened window, the
   rest of the window stays Pending. Because Pending counts as present, an
   `ensureData` call for one of those rows alone schedules nothing.
   */
  lemma StaleSizeLeavesTailPending(st: State, total: int, rows: seq<Record>, columns: Option<Columns>, i: int)
    requires Valid(st) && st.scheduled.Some?
    requires |rows| == st.scheduled.value.size
    requires st.scheduled.value.from + |rows| <= i <= st.scheduled.value.to
    requires !Loaded(st.store, i) && total == st.length
    ensures var f := Fire(st);
            var t := Respond(f.state, f.request.value, total, rows, columns).state;
            Present(t.store, i) && t.store[i] == Pending && EnsureData(t, i, i) == t
  {
  }

  /**
   A failed request leaves its window Pending, so an `ensureData` call whose
   range lies inside that window schedules nothing. The rows are posted
   again only as part of a wider window, or once they are made absent.
   */
  lemma FailedWindowIsNotRefetched(st: State, from: int, to: int)
    requires Valid(st) && st.scheduled.Some?
    requires st.scheduled.value.from <= from <= to <= st.scheduled.value.to
    ensures var f := Fire(st);
            var t := Fail(f.state, f.request.value).state;
            EnsureData(t, from, to) == t
  {
  }

  /**
   `reloadData(from, to)` always schedules a window covering the whole
   clamped range, since it first makes that range absent.
   */
  lemma ReloadDataSchedulesRange(st: State, from: int, to: int)
    requires Clamp(from) <= to
    ensures var r := ReloadData(st, from, to);
            r.scheduled.Some? && r.scheduled.value.from <= Clamp(from) && to <= r.scheduled.value.to
  {
  }

  /** After `clear`, `setSort` or `setSearch` no non-empty range is loaded. */
  lemma InvalidationUnloadsEverything(st: State, column: Option<string>, asc: bool, text: string, from: int, to: int)
    requires from <= to
    ensures !IsDataLoaded(Clear(st), from, to)
    ensures !IsDataLoaded(SetSort(st, column, asc), from, to)
    ensures !IsDataLoaded(SetSearch(st, text), from, to)
  {
  }

  /** A parameter set before the timer fires is posted, overriding a built-in field of the same name. */
  lemma SetParamReachesRequest(st: State, param: string, value: Value)
    requires st.scheduled.Some?
    ensures var f := Fire(SetParam(st, param, value));
            param in f.request.value.body && f.request.value.body[param] == value
  {
  }

  /** Removing a parameter that was just added restores the state. */
  lemma RemoveParamUndoesSetParam(st: State, param: string, value: Value)
    requires param !in st.params
    ensures RemoveParam(SetParam(st, param, value), param) == st
  {
  }

  /**
   Columns are asked for on the next request after `reloadColumns` (when
   columns are enabled), and the response to any request clears the flag,
   so the request after that does not ask again.
   */
  lemma ColumnsRequestedOnce(st: State, total: int, rows: seq<Record>, columns: Option<Columns>, w: Window)
    requires st.columnsEnabled && st.scheduled.Some? && "loadColumns" !in st.params
    ensures var f := Fire(ReloadColumns(st));
            f.request.value.body["loadColumns"] == Flag(true)
    ensures var f := Fire(ReloadColumns(st));
            var t := Respond(f.state, f.request.value, total, rows, columns).state;
            t.columns == columns && "loadColumns" !in RequestBody(t, w)
  {
  }

  /**
   `ensureData(40, 42)` on an empty store with the default optimal size of
   100: the 3-row request widens by 49 on each side, the lower end is
   clamped to 0 and its overflow moves to the upper end, giving `[0, 100]`
   with the stale size 3.
   */
  lemma WidenedFromStart()
    ensures ComputeWindow(map[], 100, 40, 42) == Some(Window(0, 100, 3))
    ensures EnsureData(Create(DefaultOptions), 40, 42).scheduled == Some(Window(0, 100, 3))
  {
  }

  /**
   A request for `[0, 99]` (size 100) answered with 60 rows and a total of
   60, whatever total the store believed before: rows 60 to 99 are absent, the
   total is 60 and the optimal size drops to 60.
   */
  lemma ShortReadShrinksOptimal(st: State, body: Record, rows: seq<Record>, columns: Option<Columns>)
    requires |rows| == 60
    ensures var r := Respond(st, Request(0, 99, 100, body), 60, rows, columns).state;
            && r.length == 60 && r.optimal == 60
            && IsDataLoaded(r, 0, 59)
            && (forall i :: 60 <= i <= 99 ==> !Present(r.store, i))
  {
  }
}

=== FILE: rows.dfy ===
/**
 Rows and the sparse row store of the AjaxModel.

 The JavaScript object `data` maps integer indices to one of three states:
 an index that is not a key is absent, `null` means "requested, not yet
 answered", and an object is a loaded row. Here the store is a finite
 `map<int, RowState>` in which a missing key is absent.
 */
module Rows {

  /**
   The JSON scalars that occur in rows, column descriptors and POST bodies.
   A JavaScript number is a `real`; row indices are posted as whole numbers.
   */
  datatype Value = Num(n: real) | Text(s: string) | Flag(b: bool) | Null

  /** A JSON object: a row of the table, a column descriptor, or a request body. */
  type Record = map<string, Value>

  /** The value of one store key: `null` (Pending) or a row object (Resolved). */
  datatype RowState = Pending | Resolved(row: Record)

  type Store = map<int, RowState>

  /** `data[i] !== undefined`: the index is requested or loaded. */
  predicate Present(s: Store, i: int) {
    i in s
  }

  /** `data[i]` is neither `undefined` nor `null`: the row is loaded. */
  predicate Loaded(s: Store, i: int) {
    i in s && s[i].Resolved?
  }

  /** Every key of the store is a row index, that is, non-negative. */
  ghost predicate IndicesNonNegative(s: Store) {
    forall i :: i in s ==> 0 <= i
  }

  /** A received row with its `index` field set to its absolute position. */
  function Stamp(row: Record, i: int): (r: Record)
    ensures "index" in r && r["index"] == Num(i as real)
    ensures r.Keys == row.Keys + {"index"}
    ensures forall k :: k in row && k != "index" ==> r[k] == row[k]
  {
    row["index" := Num(i as real)]
  }

  /**
   True iff every index of the inclusive range `[from, to]` holds a loaded
   row; an empty range is loaded.
   */
  function AllLoaded(s: Store, from: int, to: int): (b: bool)
    decreases to - from
    ensures b <==> forall i :: from <= i <= to ==> Loaded(s, i)
  {
    if from > to then true
    else Loaded(s, from) && AllLoaded(s, from + 1, to)
  }

  /**
   Marks every index of `[from, to]` that does not hold a loaded row as
   Pending, one index at a time from `from` upwards.
   */
  function MarkPending(s: Store, from: int, to: int): (r: Store)
    decreases to - from
    ensures forall i :: from <= i <= to ==> i in r
    ensures forall i :: from <= i <= to && Loaded(s, i) ==> r[i] == s[i]
    ensures forall i :: from <= i <= to && !Loaded(s, i) ==> r[i] == Pending
    ensures forall i :: (i < from || to < i) ==> (i in r <==> i in s)
    ensures forall i :: (i < from || to < i) && i in s ==> r[i] == s[i]
  {
    if from > to then s
    else
      var s' := if Loaded(s, from) then s else s[from := Pending];
      MarkPending(s', from + 1, to)
  }

  /** Deletes every key of the inclusive range `[lo, hi]`. */
  function DeleteRange(s: Store, lo: int, hi: int): (r: Store)
    ensures forall i :: i in r <==> i in s && !(lo <= i <= hi)
    ensures forall i :: i in r ==> r[i] == s[i]
  {
    map i | i in s && !(lo <= i <= hi) :: s[i]
  }

  /** Stores `rows[k]`, stamped with index `from + k`, at key `from + k`, in order of `k`. */
  function StoreRows(s: Store, from: int, rows: seq<Record>): (r: Store)
    decreases |rows|
    ensures forall i :: from <= i < from + |rows| ==> i in r && r[i] == Resolved(Stamp(rows[i - from], i))
    ensures forall i :: (i < from || from + |rows| <= i) ==> (i in r <==> i in s)
    ensures forall i :: (i < from || from + |rows| <= i) && i in s ==> r[i] == s[i]
  {
    if |rows| == 0 then s
    else
      var tail := rows[1..];
      assert forall j :: 0 <= j < |tail| ==> tail[j] == rows[j + 1];
      StoreRows(s[from := Resolved(Stamp(rows[0], from))], from + 1, tail)
  }
}

=== FILE: session.dfy ===
/**
 The AjaxModel together with its environment: the grid calls the public
 functions, the timer fires, and the server answers or rejects posted
 requests in any order. More than one request can be in flight, because
 nothing cancels a posted request; each response is reconciled against the
 store as it is when it arrives.
 */
module Session {
  import opened Wrappers
  import opened Rows
  import opened Window
  import opened AjaxModel
  import AjaxModelProperties

  datatype Event =
    | Ensure(from: int, to: int)
    | Tick                       // the armed timer runs
    | Answer(k: nat, total: int, rows: seq<Record>, columns: Option<Columns>)  // in-flight request k succeeds
    | Reject(k: nat)             // in-flight request k fails
    | Reload(from: int, to: int)
    | Wipe                       // `clear()`
    | Sort(column: Option<string>, asc: bool)
    | Search(text: string)
    | Put(param: string, value: Value)
    | Drop(param: string)
    | Recolumn                   // `reloadColumns()`

  /** The model and the requests posted but not yet answered. */
  datatype World = World(model: State, inFlight: seq<Request>)

  ghost predicate WorldValid(ss: World) {
    && Valid(ss.model)
    && forall k :: 0 <= k < |ss.inFlight| ==> 0 <= ss.inFlight[k].from
  }

  function Without(reqs: seq<Request>, k: nat): (r: seq<Request>)
    requires k < |reqs|
    ensures |r| == |reqs| - 1
    ensures forall j :: 0 <= j < |r| ==> r[j] == (if j < k then reqs[j] else reqs[j + 1])
  {
    reqs[..k] + reqs[k + 1..]
  }

  /** One event applied to the session. An answer to a request that is not in flight is ignored. */
  function Step(ss: World, e: Event): (r: World)
    ensures WorldValid(ss) ==> WorldValid(r)
    ensures |r.inFlight| <= |ss.inFlight| + 1
  {
    match e
    case Ensure(from, to) => ss.(model := EnsureData(ss.model, from, to))
    case Tick =>
      var f := Fire(ss.model);
      var posted := match f.request case None => [] case Some(req) => [req];
      World(f.state, ss.inFlight + posted)
    case Answer(k, total, rows, columns) =>
      if k < |ss.inFlight| then
        World(Respond(ss.model, ss.inFlight[k], total, rows, columns).state, Without(ss.inFlight, k))
      else ss
    case Reject(k) =>
      if k < |ss.inFlight| then
        World(Fail(ss.model, ss.inFlight[k]).state, Without(ss.inFlight, k))
      else ss
    case Reload(from, to) => ss.(model := ReloadData(ss.model, from, to))
    case Wipe => ss.(model := Clear(ss.model))
    case Sort(column, asc) => ss.(model := SetSort(ss.model, column, asc))
    case Search(text) => ss.(model := SetSearch(ss.model, text))
    case Put(param, value) => ss.(model := SetParam(ss.model, param, value))
    case Drop(param) => ss.(model := RemoveParam(ss.model, param))
    case Recolumn => ss.(model := ReloadColumns(ss.model))
  }

  function Run(ss: World, events: seq<Event>): World
    decreases |events|
  {
    if |events| == 0 then ss else Run(Step(ss, events[0]), events[1..])
  }

  /**
   Along any sequence of events the store holds only non-negative indices
   and every scheduled or posted window starts at 0 or above.
   */
  lemma {:induction false} RunPreservesValid(ss: World, events: seq<Event>)
    requires WorldValid(ss)
    ensures WorldValid(Run(ss, events))
    decreases |events|
  {
    if |events| > 0 {
      RunPreservesValid(Step(ss, events[0]), events[1..]);
    }
  }

  /**
   Nothing cancels a posted request or checks its answer against the
   current query: a request posted before `setSearch` or `setSort` is
   answered into the cleared store, its rows become loaded there, and the
   stale total is believed.
   */
  lemma StaleResponseRepopulates(ss: World, e: Event, total: int, rows: seq<Record>, columns: Option<Columns>)
    requires ss.model.scheduled.Some? && |rows| > 0
    requires e.Search? || e.Sort?
    ensures var posted := Step(ss, Tick);
            var k := |posted.inFlight| - 1;
            var req := posted.inFlight[k];
            var answered := Step(Step(posted, e), Answer(k, total, rows, columns));
            && req.from == ss.model.scheduled.value.from
            && ("search" !in ss.model.params ==> req.body["search"] == Text(ss.model.search))
            && IsDataLoaded(answered.model, req.from, req.from + |rows| - 1)
            && answered.model.length == total
            && (e.Search? ==> answered.model.search == e.text)
            && (e.Sort? ==> answered.model.sortColumn == e.column)
  {
    var f := Fire(ss.model);
    var req := f.request.value;
    var posted := Step(ss, Tick);
    assert posted == World(f.state, ss.inFlight + [req]);
    var k := |posted.inFlight| - 1;
    assert posted.inFlight[k] == req;
    var cleared := Step(posted, e);
    assert cleared.inFlight == posted.inFlight;
    assert e.Search? ==> cleared.model == SetSearch(f.state, e.text);
    assert e.Sort? ==> cleared.model == SetSort(f.state, e.column, e.asc);
    var reply := Respond(cleared.model, req, total, rows, columns);
    assert Step(cleared, Answer(k, total, rows, columns)).model == reply.state;
    AjaxModelProperties.RespondLoadsReturnedRows(cleared.model, req, total, rows, columns);
  }

  /**
   A second window can be armed and posted while the first request is
   still unanswered, so two requests are in flight at once, the first one
   still waiting for its answer.
   */
  lemma TwoRequestsInFlight(ss: World, a: int, b: int, c: int, d: int)
    requires !Present(ss.model.store, Clamp(a))
    requires !Present(Step(Step(ss, Ensure(a, b)), Tick).model.store, Clamp(c))
    ensures var first := Step(Step(ss, Ensure(a, b)), Tick);
            var second := Step(Step(first, Ensure(c, d)), Tick);
            && |second.inFlight| == |ss.inFlight| + 2
            && second.inFlight[|ss.inFlight|] == first.inFlight[|ss.inFlight|]
            && second.inFlight[|ss.inFlight|].from == ComputeWindow(ss.model.store, ss.model.optimal, a, b).value.from
  {
  }
}

=== FILE: window.dfy ===
/**
 The window computation of `ensureData` (slick.TwoGrids.js:68-114): clamp the
 requested range, trim indices already present at both ends, widen a small
 range towards the optimal batch size, slide it off present rows, and trim
 again. "Present" is `!== undefined`, so Pending indices count as present.
 */
module Window {
  import opened Wrappers
  import opened Rows

  /**
   A scheduled fetch: the final bounds and the width `size` measured after
   the first trim, before widening; the response handler compares the
   number of received rows with this `size`.
   */
  datatype Window = Window(from: int, to: int, size: int)

  /** `if (from < 0) from = 0`. */
  function Clamp(from: int): (r: int)
    ensures 0 <= r && from <= r
    ensures 0 <= from ==> r == from
    ensures from < 0 ==> r == 0
  {
    if from < 0 then 0 else from
  }

  /**
   Moves `from` up past present indices while `from < to`. The result is the
   first absent index of `[from, to)`, or `to` if there is none, or `from`
   itself when the range has at most one index.
   */
  function TrimFront(s: Store, from: int, to: int): (r: int)
    decreases to - from
    ensures from <= r
    ensures from < to ==> r <= to
    ensures to <= from ==> r == from
    ensures forall i :: from <= i < r ==> Present(s, i)
    ensures r < to ==> !Present(s, r)
  {
    if Present(s, from) && from < to then TrimFront(s, from + 1, to) else from
  }

  /** The mirror image of `TrimFront`: moves `to` down past present indices while `from < to`. */
  function TrimBack(s: Store, from: int, to: int): (r: int)
    decreases to - from
    ensures r <= to
    ensures from < to ==> from <= r
    ensures to <= from ==> r == to
    ensures forall i :: r < i <= to ==> Present(s, i)
    ensures from < r ==> !Present(s, r)
  {
    if Present(s, to) && from < to then TrimBack(s, from, to - 1) else to
  }

  /** `Math.round(d / 2)`, which rounds halves upwards: the integer nearest `d / 2`. */
  function HalfRounded(d: int): (r: int)
    ensures d <= 2 * r <= d + 1
  {
    (d + 1) / 2
  }

  /**
   Widens a window narrower than `optimal` by `HalfRounded(optimal - size)`
   at both ends; if the lower end goes below 0 it is set to 0 and the
   overflow is added to the upper end, so the widened width is kept.
   */
  function Widen(from: int, to: int, optimal: int): (r: (int, int))
    requires to - from + 1 < optimal
    ensures 0 <= r.0
    ensures r.1 - r.0 == to - from + 2 * HalfRounded(optimal - (to - from + 1))
    ensures optimal <= r.1 - r.0 + 1 <= optimal + 1
    ensures 0 <= from ==> r.0 <= from && to <= r.1
    ensures 0 < r.0 ==> from - r.0 == r.1 - to
    ensures 0 <= from - HalfRounded(optimal - (to - from + 1)) ==> r.0 == from - HalfRounded(optimal - (to - from + 1))
  {
    var expansion := HalfRounded(optimal - (to - from + 1));
    var lo := from - expansion;
    var hi := to + expansion;
    if lo < 0 then (0, hi - lo) else (lo, hi)
  }

  /** The present keys at or above `from`; shrinks at every step of `SlideUp`. */
  ghost function KeysFrom(s: Store, from: int): set<int> {
    set i | i in s && from <= i
  }

  /**
   Shifts the window up one index at a time while its lower end is present.
   It stops at the first absent index at or above `from`, which exists
   because the store is finite.
   */
  function SlideUp(s: Store, from: int, to: int): (r: (int, int))
    decreases KeysFrom(s, from)
    ensures r.1 - r.0 == to - from
    ensures from <= r.0 && !Present(s, r.0)
    ensures forall i :: from <= i < r.0 ==> Present(s, i)
  {
    if Present(s, from) then
      assert from in KeysFrom(s, from) && from !in KeysFrom(s, from + 1);
      SlideUp(s, from + 1, to + 1)
    else (from, to)
  }

  /**
   Shifts the window down one index at a time while its upper end is
   present and its lower end is above 0.
   */
  function SlideDown(s: Store, from: int, to: int): (r: (int, int))
    decreases from
    ensures r.1 - r.0 == to - from
    ensures r.0 <= from
    ensures 0 <= from ==> 0 <= r.0
    ensures Present(s, r.1) ==> r.0 <= 0
    ensures forall i :: r.1 < i <= to ==> Present(s, i)
  {
    if Present(s, to) && 0 < from then SlideDown(s, from - 1, to - 1) else (from, to)
  }

  /** Slides up if the lower end is present, else down if the upper end is present. */
  function Slide(s: Store, from: int, to: int): (r: (int, int))
    requires 0 <= from
    ensures 0 <= r.0 && r.1 - r.0 == to - from
    ensures forall i :: from <= i <= to && !Present(s, i) ==> r.0 <= i <= r.1
    ensures Present(s, from) ==> from <= r.0 && !Present(s, r.0)
    ensures !Present(s, from) && Present(s, to) ==> r.0 <= from && (!Present(s, r.1) || r.0 == 0)
    ensures !Present(s, from) && !Present(s, to) ==> r == (from, to)
  {
    if Present(s, from) then SlideUp(s, from, to)
    else if Present(s, to) then SlideDown(s, from, to)
    else (from, to)
  }

  /**
   The whole window computation. `None` is the early return of
   slick.TwoGrids.js:76-78; `Some(w)` is the window the timer is armed with.
   */
  function ComputeWindow(s: Store, optimal: int, from: int, to: int): (r: Option<Window>)
    ensures r.Some? ==> 0 <= r.value.from
  {
    var f1 := TrimFront(s, Clamp(from), to);
    var t1 := TrimBack(s, f1, to);
    if Present(s, f1) then None
    else
      var size := t1 - f1 + 1;
      var (f2, t2) := if size < optimal then
                        var (fe, te) := Widen(f1, t1, optimal);
                        Slide(s, fe, te)
                      else (f1, t1);
      var f3 := TrimFront(s, f2, t2);
      Some(Window(f3, TrimBack(s, f3, t2), size))
  }

  /**
   The early return happens exactly when every index from the clamped start
   up to `to` (at least the start itself) is present, pending or loaded.
   */
  lemma EarlyReturnIffPresent(s: Store, optimal: int, from: int, to: int)
    ensures ComputeWindow(s, optimal, from, to).None?
        <==> forall i :: Clamp(from) <= i <= to || i == Clamp(from) ==> Present(s, i)
  {
  }

  /**
   Every absent index of the clamped request lies inside the window that is
   scheduled for it: trimming, widening and sliding never uncover a row
   that is still missing.
   */
  lemma WindowCoversMissing(s: Store, optimal: int, from: int, to: int, i: int)
    requires Clamp(from) <= i <= to && !Present(s, i)
    ensures ComputeWindow(s, optimal, from, to).Some?
    ensures ComputeWindow(s, optimal, from, to).value.from <= i <= ComputeWindow(s, optimal, from, to).value.to
  {
  }
}

=== FILE: wrappers.dfy ===
/** The optional-value datatype used throughout the model. */
module Wrappers {

  /** `None` stands in for the JavaScript `null`/`undefined` of an unset field. */
  datatype Option<+T> = None | Some(value: T)
}
